=== FILE: README.md ===
# Rose galaxy: the animation core, modelled in Dafny

The scene draws a forest of stylised rose trees and a cloud of floating petals
in a browser. Under the React and three.js code sits a small, deterministic
core, and this project models it:

- **ProceduralRose** (`procedural_rose.dfy`). Each petal has a rest position on
  a golden-angle (phyllotaxis) spiral. It has two pointer flags, `hovered` and
  `clicked`, driven by four pointer events. Each frame, its scale, rotation and
  height take one lerp step with factor 0.1 towards targets chosen from the
  flags, the elapsed time and the storm flag. The tree sways as a whole, and
  its skeleton is a trunk plus two branch stubs when the stem is longer than 1.
- **Smoothing** (`smoothing.dfy`). The lerp step itself. It lands between the
  value and the target and leaves exactly 0.9 of the distance. Iterated
  towards a fixed target, it is monotone and converges.
- **FloatingPetals** (`floating_petals.dfy`). A pool of 1000 particles is built
  once from random draws. Each frame only the slots below `count` are processed.
  In calm mode a processed slot advances its own time `t` in place. In storm
  mode no particle changes, and the matrix comes from elapsed time alone. Each
  processed slot writes one matrix to the instance buffer.
- **Experience** (`experience.dfy`). A loop generates the 60 forest placements.
  The module also holds the per-tree colour choice, the slow rotation of the
  world, and the particle count for storm and calm.
- **Themes** (`themes.dfy`) holds the theme table and `ROSE_COUNT`.
- **RealMath** (`real_math.dfy`) holds the vector and transform records. It
  also holds `Math`, the four JavaScript functions `sin`, `cos`, `sqrt` and
  `log`. These stay uninterpreted, and `Lawful` states the only facts used
  about them:
  - `sin` and `cos` lie in [-1, 1], and sin² + cos² = 1.
  - `sqrt` is non-negative and strictly increasing on [0, ∞), `sqrt(0) = 0`,
    and `sqrt(u) < 1` on [0, 1).
  - `log` is strictly increasing on (0, ∞), and `log(1) = 0`.

Random draws (`Math.random()`) are explicit inputs, each in [0, 1). They are
taken in the order the source makes its calls: eight per particle and four per
tree. Elapsed time is an explicit input to every frame step. The particle
frame reads the clock once per processed slot (`FloatingPetals.tsx:60` sits
inside the `forEach`), so it takes one reading per slot (`times`). The
instanced mesh is built for `count` instances (`FloatingPetals.tsx:112`), so
its matrix buffer is an array of length `count`.

Behaviour of the code that the model keeps as written:

- Pointer-down sets `clicked` whether or not the petal is hovered
  (`ProceduralRose.tsx:83`).
- The storm asks for 1500 particles (`Experience.tsx:118`), more than the pool
  holds. The pool is not clamped. The loop simply has only 1000 slots, so mesh
  instances 1000 to 1499 are never written.
- `THEMES[theme]` (`Experience.tsx:19`) is indexed by the two-valued
  `ThemeColor` and has no fallback, so `ThemeColor` has just two constructors.
- A tree's colour is drawn during render (`Experience.tsx:100`), so every
  re-render draws it again. `TreeColor` models one draw.
- Radius and height are proved strictly increasing in the petal index, for a
  positive scale factor.

## Model

| member | source | states |
|---|---|---|
| `ProceduralRose.PetalLayout` | ProceduralRose.tsx:32-37 | theta = i·golden angle; radius ≥ 0 for a non-negative scale; the rest position is (cos(theta)·radius, height, sin(theta)·radius), so it lies at distance `radius` from the axis in the direction of theta; petal 0 sits at the origin; the inner tilt of a canopy petal lies in [π/3, π/3 + 0.3) |
| `ProceduralRose.LayoutMonotone` | ProceduralRose.tsx:34-35 | for a positive scale factor, rest radius and rest height both strictly increase with the petal index |
| `ProceduralRose.Canopy` | ProceduralRose.tsx:139-142 | a tree has exactly ROSE_COUNT petals, petal k laid out as index k at scale factor 1.8; the first sits at the origin; radii and heights strictly increase along the canopy |
| `ProceduralRose.OnPointer` | ProceduralRose.tsx:81-84 | pointer-over sets `hovered`; pointer-out clears both flags; pointer-down sets `clicked`; pointer-up clears only `clicked`; each leaves the other flag as it was |
| `ProceduralRose.ClickedIffPressHeld` | ProceduralRose.tsx:81-84 | after any run of events, `clicked` holds iff the last pointer-down has no later pointer-up or pointer-out (or there was none and the petal started clicked) |
| `ProceduralRose.HoveredIffPointerInside` | ProceduralRose.tsx:81-82 | after any run of events, `hovered` holds iff the last pointer-over has no later pointer-out (or there was none and the petal started hovered) |
| `ProceduralRose.TargetScale` | ProceduralRose.tsx:60 | 0.9 whenever clicked (hover or not), else 1.3 when hovered, else 1.0; always within [0.9, 1.3] |
| `ProceduralRose.TargetScaleAfterEvents` | ProceduralRose.tsx:60 | after any run of events the target is 0.9 iff a press is held, and 1.3 iff no press is held and the pointer is inside |
| `ProceduralRose.StormShakeX` | ProceduralRose.tsx:48-55 | the rotation.x target: 0 when calm, within ±0.1 in a storm |
| `ProceduralRose.StormShakeZ` | ProceduralRose.tsx:48-55 | the storm part of the rotation.z target: 0 when calm, within ±0.1 |
| `ProceduralRose.Breathing` | ProceduralRose.tsx:58 | the breathing offset stays within ±0.01 |
| `ProceduralRose.StormJitterY` | ProceduralRose.tsx:73 | the storm y-jitter: 0 when calm, within ±0.03 |
| `ProceduralRose.TargetRotZ` | ProceduralRose.tsx:64-67 | the rotation.z target lies within ±0.2, and within ±0.05 when neither stormy nor hovered |
| `ProceduralRose.TargetY` | ProceduralRose.tsx:72-73 | the y target lies in [rest − 0.04, rest + 0.14]; it is more than 0.05 above rest iff hovered; in calm it is within 0.01 of rest, or of rest + 0.1 when hovered |
| `ProceduralRose.HoverLift` | ProceduralRose.tsx:72-73 | hovering adds exactly 0.1 to the y target, all else equal |
| `ProceduralRose.Petal.constructor` | ProceduralRose.tsx:28-40 | a mounted petal is idle, at its rest position, at unit scale, turned by −theta, and satisfies the petal invariant |
| `ProceduralRose.Petal.OnPointerOver` | ProceduralRose.tsx:81 | the flags become `OnPointer(old, PointerOver)`; the transform is untouched |
| `ProceduralRose.Petal.OnPointerOut` | ProceduralRose.tsx:82 | the flags become `OnPointer(old, PointerOut)`; the transform is untouched |
| `ProceduralRose.Petal.OnPointerDown` | ProceduralRose.tsx:83 | the flags become `OnPointer(old, PointerDown)`; the transform is untouched |
| `ProceduralRose.Petal.OnPointerUp` | ProceduralRose.tsx:84 | the flags become `OnPointer(old, PointerUp)`; the transform is untouched |
| `ProceduralRose.Petal.Frame` | ProceduralRose.tsx:42-75 | scale, rotation.x, rotation.z and position.y each take one smoothing step towards their targets; flags, yaw and horizontal position are unchanged; the invariant (uniform scale within [0.9, 1.3], rotations within their target ranges, height within [rest − 0.04, rest + 0.14]) is preserved |
| `ProceduralRose.HoldFrames` | ProceduralRose.tsx:60-61 | with no pointer event between frames, the scale after n frames is the n-fold smoothing towards the one target the flags select |
| `Smoothing.Smooth` | ProceduralRose.tsx:69-74 | one lerp step with factor 0.1 lands between the value and its target, never overshoots, and leaves exactly 0.9 of the distance |
| `Smoothing.SmoothN` | ProceduralRose.tsx:61 | n steps towards a fixed target stay between the start and the target, and leave 0.9ⁿ of the distance |
| `Smoothing.SmoothNMonotone` | ProceduralRose.tsx:61 | iterated smoothing is monotone: every later value lies between any earlier value and the target |
| `Smoothing.SmoothNConverges` | ProceduralRose.tsx:61 | after n steps with n·ε ≥ 9·distance, the value is within ε of the target |
| `ProceduralRose.SwayAmount` | ProceduralRose.tsx:124-127 | the amplitude is 0.15·sqrt(stemLength) in a storm (wind 0.3) and 0.01·sqrt(stemLength) in calm (wind 0.02); never negative |
| `ProceduralRose.SwayGrowsWithHeight` | ProceduralRose.tsx:127 | a taller stem sways with a strictly larger amplitude |
| `ProceduralRose.Sway` | ProceduralRose.tsx:124-130 | rotation.z is sin(t·speed + x)·amplitude and rotation.x is cos(t·speed·0.8 + z)·amplitude, with speed 8 in a storm and 1 in calm and the phase taken from the tree's position; both are bounded by the sway amplitude |
| `ProceduralRose.RoseTree.constructor` | ProceduralRose.tsx:92-100 | the props default to scale 1 and stem length 0.5; the group starts unrotated |
| `ProceduralRose.RoseTree.Frame` | ProceduralRose.tsx:121-132 | the group's x and z rotation are set outright to the sway at time t (bounded by the amplitude); its y rotation is kept |
| `ProceduralRose.Trunk` | ProceduralRose.tsx:153-158 | the trunk stands on the ground and reaches exactly the canopy origin at the stem length, twice as thick at the base as at the top |
| `ProceduralRose.Branches` | ProceduralRose.tsx:160-172 | exactly two branch stubs when stemLength > 1, none otherwise; each starts below the stem top, is shorter than the stem and tapers |
| `ProceduralRose.RoseTree.Skeleton` | ProceduralRose.tsx:153-172 | the skeleton is the tree's trunk followed by exactly its branch stubs |
| `Themes.ThemeOf` | constants.ts:2-23 | each theme's primary and secondary colours differ; bloom threshold in (0, 1) and positive bloom intensity |
| `FloatingPetals.NewParticle` | FloatingPetals.tsx:13-22 | from draws in [0, 1): t ∈ [0, 100), factor ∈ [20, 120), speed ∈ [0.01, 0.015), xFactor, zFactor ∈ [−10, 10), yFactor ∈ [−5, 5), stormOffset ∈ [0, 2π), stormRadius ∈ [2, 7), my = 0 |
| `FloatingPetals.InitialParticles` | FloatingPetals.tsx:10-25 | the loop builds exactly 1000 particles, particle k from the k-th group of eight draws, all within their initial ranges |
| `FloatingPetals.ParticlePool.constructor` | FloatingPetals.tsx:10-25 | the pool array is fresh, holds 1000 particles built from the draws, and satisfies the pool invariant |
| `FloatingPetals.Advance` | FloatingPetals.tsx:88 | calm mode adds speed/2 to `t`, changes no other field, and strictly increases `t` for a positive speed |
| `FloatingPetals.SlotAfter` | FloatingPetals.tsx:56-58 | a slot at or beyond `count`, or any slot in storm mode, is unchanged; a processed calm slot advances; the pool ranges are preserved |
| `FloatingPetals.StormTransform` | FloatingPetals.tsx:62-83 | the horizontal position is (cos(a)·ρ, sin(a)·ρ) with vortex angle a = time·2 + stormOffset + i·0.01 and radius ρ = stormRadius + sin(time·3 + i); all three rotation angles equal time·5 + i; the uniform scale lies in [1, 2]; height in [−3.5, 7.5]; a pool particle stays at horizontal distance in [1, 8) |
| `FloatingPetals.CalmCoord` | FloatingPetals.tsx:95-98 | with `my` = 0 the orbit term contributes nothing, and the coordinate stays within 1 + factor/10 of its centre |
| `FloatingPetals.CalmTransform` | FloatingPetals.tsx:89-102 | the scale is cos(t) on all axes, every rotation is 5·cos(t), and with `my` = 0 the position stays within 1 + factor/10 of (xFactor, yFactor, zFactor) |
| `FloatingPetals.StormIgnoresCalmState` | FloatingPetals.tsx:62-83 | a storm matrix depends only on time, index, storm offset and storm radius, not on the particle's time |
| `FloatingPetals.PoolAfter` | FloatingPetals.tsx:55-58 | the pool after a frame keeps its size; each slot is transformed by the per-slot rule |
| `FloatingPetals.SlotTransform` | FloatingPetals.tsx:62-103 | a storm matrix has rotation time·5 + k on every axis and scale in [1, 2]; a calm matrix is computed from the particle's time after this frame's advance (scale cos(t + speed/2), rotation 5·cos(t + speed/2)), and drifts at most 1 + factor/10 from its centre in x |
| `FloatingPetals.MatricesAfter` | FloatingPetals.tsx:55-106 | (skip at line 56, write at lines 105-106) slots below both `count` and the pool size get their new matrix; every other buffer entry keeps its old value |
| `FloatingPetals.StormKeepsPool` | FloatingPetals.tsx:58-84 | any number of storm frames leaves every particle unchanged |
| `FloatingPetals.StormFrameRepeats` | FloatingPetals.tsx:62-84 | two storm frames at the same clock readings write identical matrices |
| `FloatingPetals.StormThenCalmResumes` | FloatingPetals.tsx:62-88 | storm frames followed by a calm frame give the same pool as the calm frame alone: calm motion resumes from the last `t` |
| `FloatingPetals.CalmFramesAdvance` | FloatingPetals.tsx:88 | after n calm frames a processed slot's `t` has grown by exactly n·speed/2 (strictly for n > 0); skipped slots are unchanged, so a density change resets nothing |
| `FloatingPetals.SpeedIsFixed` | FloatingPetals.tsx:58 | frames change no particle field but `t` |
| `FloatingPetals.ParticlePool.ProcessSlot` | FloatingPetals.tsx:57-103 | the callback for one processed slot computes that slot's matrix into the shared scratch transform, changes only that slot, and advances it only in calm mode |
| `FloatingPetals.ParticlePool.Frame` | FloatingPetals.tsx:49-109 | the particle array after the frame is `PoolAfter` of the old one and the buffer is `MatricesAfter` of the old one; the pool invariant is preserved |
| `Experience.RingRadius` | Experience.tsx:30 | the distance from the centre, 2 + sqrt(u)·15, lies in [2, 17) |
| `Experience.Placement` | Experience.tsx:28-38 | a tree stands at y = −1 at (cos(a)·r, sin(a)·r) with angle a = 2π·u₀ and ring radius r from the second draw, so its squared distance from the centre lies in [4, 289); height in [2, 6) and scale in [0.8, 1.6), keyed by its index |
| `Experience.GenerateForest` | Experience.tsx:22-41 | the loop builds exactly 60 placements, keyed 0..59 in order, tree k from the k-th group of four draws |
| `Experience.ForestTreesBranch` | Experience.tsx:35 | every forest tree's stem is taller than 1, so every one grows exactly two branch stubs |
| `Experience.TreeColor` | Experience.tsx:100 | the primary colour iff the draw exceeds 0.3, the secondary colour iff it does not |
| `Experience.WorldRotationY` | Experience.tsx:46 | the world rotation is exactly 0.05·elapsed in calm and 0.2·elapsed in a storm, four times the calm angle; never negative for a non-negative clock |
| `Experience.World.Frame` | Experience.tsx:43-48 | the group's y rotation is set outright to the rotation for the elapsed time |
| `Experience.ParticleCount` | Experience.tsx:118 | exactly 1500 in a storm (more than the pool), exactly 300 in calm (fewer) |
| `Experience.MountHero` | Experience.tsx:85-93 | the hero tree stands at (0, −1, 0) with scale 2 and stem length 4 in the theme's primary and trunk colours, and its skeleton is the trunk plus both branch stubs |
| `Experience.StormOverflowUnwritten` | Experience.tsx:116-120 | in a storm only the 1000 pooled slots are written and instances 1000 to 1499 keep their old matrices; in calm all 300 instances are written |

## Left out

- Geometry and materials are not modelled, because none of them has behaviour
  worth a proof. This covers the petal sphere geometry and the physical
  material (`ProceduralRose.tsx:104-119`), the centre glow mesh and its point
  light (`ProceduralRose.tsx:145-150`), and the curl loop on the particle plane
  geometry (`FloatingPetals.tsx:27-47`).
- The rest of the scene in `Experience.tsx:52-142` is not modelled: camera,
  orbit controls, fog, lights, ground plane, sparkles and post-processing.
  The hero tree is modelled by `MountHero`; its `bloomIntensity` prop is not,
  because no petal reads it.
- The hover colour of a petal instance (`ProceduralRose.tsx:85`) is not
  modelled, because it is a render prop with no state of its own.
- The `if (!meshRef.current) return` guards are not modelled, because the frame
  step is taken to run only on a mounted object.
- React's and three.js's machinery is not modelled: frame scheduling, state
  setters and re-rendering (including whether props such as `position` are
  re-applied on a re-render), and `updateMatrix`/`setMatrixAt`. A written
  matrix is the (position, rotation, scale) triple it is composed from.
- A `RoseTree` does not own its 60 `Petal` objects. Each petal is an
  independent object driven by its own frame step, as the source's per-petal
  callbacks are. The tree's layouts are given by `Canopy`.
- The exact values of sin, cos, sqrt and log, and IEEE double rounding, are
  not modelled, because only the facts listed above are assumed. NaN is not
  modelled either, for example `sqrt` of a negative stem length.
- `ProceduralRose.Sway`: its bound is stated only for a non-negative stem
  length, because the source would compute NaN otherwise.
- `Experience.TreeColor`: the 70/30 split between primary and secondary is a
  probability over uniform draws, and the model states only the threshold
  rule. Math.random is not modelled as a generator, so reproducibility of
  the draws is outside the model.
- Overlay.tsx and App.tsx (the UI buttons and the renderer bootstrap) are not
  part of this model. types.ts is modelled only as the `ThemeColor` type.

=== FILE: experience.dfy ===
/** The scene around the trees: the forest layout built once at setup, each
    tree's colour, the slow rotation of the world and the particle density. */
module Experience {
  import opened RealMath
  import opened Themes
  import ProceduralRose
  import FloatingPetals

  /** The number of trees and the radius of the ring they are scattered over. */
  const FOREST_COUNT: nat := 60
  const FOREST_RADIUS: real := 15.0

  /** Math.random() is called this many times per tree. */
  const DRAWS_PER_TREE: nat := 4

  /** One forest item: its position, stem height, scale and key. */
  datatype TreePlacement = TreePlacement(pos: Vec3, height: real, scale: real, id: nat)

  /** The distance from the centre: 2 + sqrt(u) * 15, which lies in [2, 17). */
  function RingRadius(m: Math, u: real): (r: real)
    requires Lawful(m) && IsDraw(u)
    ensures 2.0 <= r < 2.0 + FOREST_RADIUS
  {
    2.0 + m.sqrt(u) * FOREST_RADIUS
  }

  /** Tree `id` from its four draws, in the order the source calls
      Math.random(): angle, radius, height, scale. It stands on the ground
      plane y = -1 at a distance in [2, 17) from the centre, with a height in
      [2, 6) and a scale in [0.8, 1.6). */
  function Placement(m: Math, d: seq<real>, id: nat): (tree: TreePlacement)
    requires Lawful(m)
    requires |d| == DRAWS_PER_TREE && forall k :: 0 <= k < |d| ==> IsDraw(d[k])
    ensures tree.id == id && tree.pos.y == -1.0
    ensures tree.pos.x == m.cos(d[0] * PI * 2.0) * RingRadius(m, d[1])
    ensures tree.pos.z == m.sin(d[0] * PI * 2.0) * RingRadius(m, d[1])
    ensures 4.0 <= tree.pos.x * tree.pos.x + tree.pos.z * tree.pos.z < 289.0
    ensures 2.0 <= tree.height < 6.0
    ensures 0.8 <= tree.scale < 1.6
  {
    assert IsDraw(d[0]) && IsDraw(d[1]) && IsDraw(d[2]) && IsDraw(d[3]);
    var angle := d[0] * PI * 2.0;
    var r := RingRadius(m, d[1]);
    var x := m.cos(angle) * r;
    var z := m.sin(angle) * r;
    var height := 2.0 + d[2] * 4.0;
    var scale := 0.8 + d[3] * 0.8;
    PolarNorm(m, angle, r);
    SquareBetween(2.0, r, 17.0);
    TreePlacement(Vec3(x, -1.0, z), height, scale, id)
  }

  /** The draws tree k is built from. */
  function TreeDraws(draws: seq<real>, k: nat): seq<real>
    requires DRAWS_PER_TREE * (k + 1) <= |draws|
  {
    draws[DRAWS_PER_TREE * k .. DRAWS_PER_TREE * (k + 1)]
  }

  /** Builds the forest once: exactly FOREST_COUNT trees, keyed 0, 1, ... in
      order, tree k from the k-th group of four draws. */
  method GenerateForest(m: Math, draws: seq<real>) returns (items: seq<TreePlacement>)
    requires Lawful(m)
    requires |draws| == FOREST_COUNT * DRAWS_PER_TREE
    requires forall k :: 0 <= k < |draws| ==> IsDraw(draws[k])
    ensures |items| == FOREST_COUNT
    ensures forall k :: 0 <= k < FOREST_COUNT ==> items[k] == Placement(m, TreeDraws(draws, k), k)
    ensures forall k :: 0 <= k < FOREST_COUNT ==> items[k].id == k && items[k].pos.y == -1.0
  {
    items := [];
    for i := 0 to FOREST_COUNT
      invariant |items| == i
      invariant forall k :: 0 <= k < i ==> items[k] == Placement(m, TreeDraws(draws, k), k)
    {
      items := items + [Placement(m, TreeDraws(draws, i), i)];
    }
  }

  /** Every forest tree is taller than 1, so every one of them grows the two
      branch stubs. */
  lemma ForestTreesBranch(m: Math, items: seq<TreePlacement>, draws: seq<real>)
    requires Lawful(m)
    requires |draws| == FOREST_COUNT * DRAWS_PER_TREE
    requires forall k :: 0 <= k < |draws| ==> IsDraw(draws[k])
    requires |items| == FOREST_COUNT
    requires forall k :: 0 <= k < FOREST_COUNT ==> items[k] == Placement(m, TreeDraws(draws, k), k)
    ensures forall k :: 0 <= k < FOREST_COUNT ==> |ProceduralRose.Branches(items[k].height)| == 2
  {
    forall k | 0 <= k < FOREST_COUNT
      ensures |ProceduralRose.Branches(items[k].height)| == 2
    {
      var d := TreeDraws(draws, k);
      assert forall j :: 0 <= j < |d| ==> IsDraw(d[j]);
      assert items[k].height >= 2.0;
    }
  }

  /** The colour a forest tree is rendered with, from a fresh draw: the theme's
      primary colour when the draw exceeds 0.3, its secondary colour otherwise. */
  function TreeColor(theme: ThemeColor, draw: real): (c: string)
    ensures c == ThemeOf(theme).primary <==> draw > 0.3
    ensures c == ThemeOf(theme).secondary <==> draw <= 0.3
  {
    if draw > 0.3 then ThemeOf(theme).primary else ThemeOf(theme).secondary
  }

  /** The hero tree in the middle: scale 2, stem length 4. */
  const HERO_POSITION: Vec3 := Vec3(0.0, -1.0, 0.0)
  const HERO_SCALE: real := 2.0
  const HERO_STEM_LENGTH: real := 4.0

  /** Mounts the hero tree in the theme's primary and trunk colours. Its stem
      is longer than 1, so its skeleton is the trunk and both branch stubs. */
  method MountHero(theme: ThemeColor) returns (hero: ProceduralRose.RoseTree)
    ensures fresh(hero)
    ensures hero.position == HERO_POSITION && hero.scale == HERO_SCALE && hero.stemLength == HERO_STEM_LENGTH
    ensures hero.color == ThemeOf(theme).primary && hero.trunkColor == ThemeOf(theme).trunk
    ensures |hero.Skeleton()| == 3
  {
    hero := new ProceduralRose.RoseTree(HERO_POSITION, ThemeOf(theme).primary, ThemeOf(theme).trunk,
                                        HERO_SCALE, HERO_STEM_LENGTH);
  }

  /** The world spins four times as fast in a storm. */
  function WorldSpin(storm: bool): real {
    if storm then 0.2 else 0.05
  }

  /** The world's rotation about y at elapsed time `elapsed`: proportional to
      the elapsed time, with no memory of earlier frames, so toggling the storm
      changes the angle at once. */
  function WorldRotationY(elapsed: real, storm: bool): (angle: real)
    ensures !storm ==> angle == 0.05 * elapsed
    ensures storm ==> angle == 0.2 * elapsed
    ensures storm ==> angle == 4.0 * WorldRotationY(elapsed, false)
    ensures 0.0 <= elapsed ==> 0.0 <= angle
  {
    elapsed * WorldSpin(storm)
  }

  /** The number of floating petals asked for: 1500 in a storm, 300 in calm. */
  function ParticleCount(storm: bool): (n: nat)
    ensures storm ==> n == 1500 && n > FloatingPetals.POOL_SIZE
    ensures !storm ==> n == 300 && n < FloatingPetals.POOL_SIZE
  {
    if storm then 1500 else 300
  }

  /** In a storm the count exceeds the pool, so only the POOL_SIZE pooled
      slots are written and the remaining 500 instances keep whatever matrix
      they held; in calm all 300 instances are written. */
  lemma StormOverflowUnwritten(m: Math, times: seq<real>, ps: seq<FloatingPetals.Particle>, storm: bool,
                               buffer: seq<Transform>)
    requires Lawful(m)
    requires |times| == |ps| == FloatingPetals.POOL_SIZE && |buffer| == ParticleCount(storm)
    ensures var after := FloatingPetals.MatricesAfter(m, times, ps, ParticleCount(storm), storm, buffer);
      && (storm ==> forall k :: FloatingPetals.POOL_SIZE <= k < |buffer| ==> after[k] == buffer[k])
      && (storm ==> forall k :: 0 <= k < FloatingPetals.POOL_SIZE ==>
            after[k] == FloatingPetals.SlotTransform(m, times[k], k, ps[k], storm))
      && (!storm ==> forall k :: 0 <= k < |buffer| ==>
            after[k] == FloatingPetals.SlotTransform(m, times[k], k, ps[k], storm))
  {
  }

  /** The scene's group, whose rotation about y each frame sets outright. */
  class World {
    var rotationY: real

    constructor ()
      ensures rotationY == 0.0
    {
      rotationY := 0.0;
    }

    method Frame(elapsed: real, storm: bool)
      modifies this
      ensures rotationY == WorldRotationY(elapsed, storm)
    {
      rotationY := WorldRotationY(elapsed, storm);
    }
  }
}

=== FILE: floating_petals.dfy ===
/** The pool of floating petal particles: built once from random draws, then
    advanced and drawn each frame for the first `count` slots only. */
module FloatingPetals {
  import opened RealMath

  /** The pool's fixed capacity. */
  const POOL_SIZE: nat := 1000

  /** Math.random() is called this many times per particle. */
  const DRAWS_PER_PARTICLE: nat := 8

  /** One pooled particle. Only `t` ever changes after creation; `my` is an
      unused displacement that is always 0. */
  datatype Particle = Particle(
    t: real,
    factor: real,
    speed: real,
    xFactor: real,
    yFactor: real,
    zFactor: real,
    stormOffset: real,
    stormRadius: real,
    my: real)

  /** The ranges every particle keeps for its whole life. `t` only grows, so it
      stays non-negative. */
  predicate Healthy(p: Particle) {
    && 0.0 <= p.t
    && 20.0 <= p.factor < 120.0
    && 0.01 <= p.speed < 0.015
    && -10.0 <= p.xFactor < 10.0
    && -5.0 <= p.yFactor < 5.0
    && -10.0 <= p.zFactor < 10.0
    && 0.0 <= p.stormOffset < 2.0 * PI
    && 2.0 <= p.stormRadius < 7.0
    && p.my == 0.0
  }

  /** A particle built from eight draws in the order the source calls
      Math.random(): t, factor, speed, xFactor, yFactor, zFactor, stormOffset,
      stormRadius. Its internal time starts below 100. */
  function NewParticle(d: seq<real>): (p: Particle)
    requires |d| == DRAWS_PER_PARTICLE
    requires forall k :: 0 <= k < |d| ==> IsDraw(d[k])
    ensures Healthy(p)
    ensures p.t < 100.0
  {
    assert IsDraw(d[0]) && IsDraw(d[1]) && IsDraw(d[2]) && IsDraw(d[3]);
    assert IsDraw(d[4]) && IsDraw(d[5]) && IsDraw(d[6]) && IsDraw(d[7]);
    Particle(
      d[0] * 100.0,
      20.0 + d[1] * 100.0,
      0.01 + d[2] / 200.0,
      -10.0 + d[3] * 20.0,
      -5.0 + d[4] * 10.0,
      -10.0 + d[5] * 20.0,
      d[6] * PI * 2.0,
      2.0 + d[7] * 5.0,
      0.0)
  }

  /** The draws that particle k of the pool is built from. */
  function DrawsOf(draws: seq<real>, k: nat): seq<real>
    requires DRAWS_PER_PARTICLE * (k + 1) <= |draws|
  {
    draws[DRAWS_PER_PARTICLE * k .. DRAWS_PER_PARTICLE * (k + 1)]
  }

  /** Builds the pool once: POOL_SIZE particles, particle k from the k-th group
      of eight draws, each healthy. */
  method InitialParticles(draws: seq<real>) returns (temp: seq<Particle>)
    requires |draws| == POOL_SIZE * DRAWS_PER_PARTICLE
    requires forall k :: 0 <= k < |draws| ==> IsDraw(draws[k])
    ensures |temp| == POOL_SIZE
    ensures forall k :: 0 <= k < POOL_SIZE ==> temp[k] == NewParticle(DrawsOf(draws, k))
    ensures forall k :: 0 <= k < POOL_SIZE ==> Healthy(temp[k]) && temp[k].t < 100.0
  {
    temp := [];
    for i := 0 to POOL_SIZE
      invariant |temp| == i
      invariant forall k :: 0 <= k < i ==> temp[k] == NewParticle(DrawsOf(draws, k))
      invariant forall k :: 0 <= k < i ==> Healthy(temp[k]) && temp[k].t < 100.0
    {
      temp := temp + [NewParticle(DrawsOf(draws, i))];
    }
  }

  // ---------------------------------------------------------------------------
  // One slot per frame

  /** Calm mode advances the particle's own time by half its speed. */
  function Advance(p: Particle): (q: Particle)
    ensures q.t == p.t + p.speed / 2.0
    ensures q.(t := p.t) == p
    ensures 0.0 < p.speed ==> p.t < q.t
  {
    p.(t := p.t + p.speed / 2.0)
  }

  /** What a frame does to slot k: a processed slot in calm mode advances;
      a skipped slot, or any slot in storm mode, stays exactly as it was
      (storm mode only reads a local copy of the particle). */
  function SlotAfter(p: Particle, k: nat, count: int, storm: bool): (q: Particle)
    ensures (storm || count <= k) ==> q == p
    ensures (!storm && k < count) ==> q == Advance(p)
    ensures Healthy(p) ==> Healthy(q)
  {
    if k < count && !storm then Advance(p) else p
  }

  /** Storm mode: a vortex around the vertical axis. The position depends only on
      the elapsed time, the slot index and the particle's storm offset and
      radius; all three rotation angles are time * 5 + k and the uniform scale
      pulses within [1, 2]. A healthy particle circles at a horizontal distance
      between 1 and 8. */
  function StormTransform(m: Math, time: real, k: nat, p: Particle): (tr: Transform)
    requires Lawful(m)
    ensures tr.position.x == m.cos(time * 2.0 + p.stormOffset + k as real * 0.01) * (p.stormRadius + m.sin(time * 3.0 + k as real) * 1.0)
    ensures tr.position.z == m.sin(time * 2.0 + p.stormOffset + k as real * 0.01) * (p.stormRadius + m.sin(time * 3.0 + k as real) * 1.0)
    ensures tr.rotation == Vec3(time * 5.0 + k as real, time * 5.0 + k as real, time * 5.0 + k as real)
    ensures tr.scale.x == tr.scale.y == tr.scale.z && 1.0 <= tr.scale.x <= 2.0
    ensures -3.5 <= tr.position.y <= 7.5
    ensures Healthy(p) ==>
      1.0 <= tr.position.x * tr.position.x + tr.position.z * tr.position.z < 64.0
  {
    var angle := time * 2.0 + p.stormOffset + k as real * 0.01;
    var radius := p.stormRadius + m.sin(time * 3.0 + k as real) * 1.0;
    var height := m.sin(time + k as real * 0.05) * 5.0 + 2.0;
    var s := 1.5 + m.sin(time * 10.0 + k as real) * 0.5;
    PolarNorm(m, angle, radius);
    SquareBetween(1.0, radius, 8.0);
    Transform(
      Vec3(m.cos(angle) * radius, height + m.sin(time * 5.0 + k as real) * 0.5, m.sin(angle) * radius),
      Vec3(time * 5.0 + k as real, time * 5.0 + k as real, time * 5.0 + k as real),
      Vec3(s, s, s))
  }

  /** One coordinate of the calm drift: the orbit term (my / 10) * orbit, the
      centre, a slow wave and a ripple scaled by the particle's factor. While
      `my` is 0 the orbit term vanishes and the coordinate stays within
      1 + f / 10 of its centre. */
  function CalmCoord(my: real, orbit: real, centre: real, wave: real, ripple: real, f: real): (c: real)
    requires -1.0 <= wave <= 1.0 && -1.0 <= ripple <= 1.0
    ensures my == 0.0 ==> c == centre + wave + (ripple * f) / 10.0
    ensures my == 0.0 && 0.0 <= f ==> Abs(c - centre) <= 1.0 + f / 10.0
  {
    ScaledUnit(ripple, f);
    assert my == 0.0 ==> (my / 10.0) * orbit == 0.0;
    (my / 10.0) * orbit + centre + wave + (ripple * f) / 10.0
  }

  /** Calm mode, from the particle with its time already advanced: a Lissajous
      drift around (xFactor, yFactor, zFactor). The uniform scale is cos(t) and
      every rotation angle is five times it. With `my` at 0 each coordinate
      stays within 1 + factor / 10 of its centre. */
  function CalmTransform(m: Math, p: Particle): (tr: Transform)
    requires Lawful(m)
    ensures tr.scale == Vec3(m.cos(p.t), m.cos(p.t), m.cos(p.t))
    ensures tr.rotation == Vec3(5.0 * m.cos(p.t), 5.0 * m.cos(p.t), 5.0 * m.cos(p.t))
    ensures -1.0 <= tr.scale.x <= 1.0
    ensures p.my == 0.0 && 0.0 <= p.factor ==> Abs(tr.position.x - p.xFactor) <= 1.0 + p.factor / 10.0
    ensures p.my == 0.0 && 0.0 <= p.factor ==> Abs(tr.position.y - p.yFactor) <= 1.0 + p.factor / 10.0
    ensures p.my == 0.0 && 0.0 <= p.factor ==> Abs(tr.position.z - p.zFactor) <= 1.0 + p.factor / 10.0
  {
    var ct := p.t;
    var a := m.cos(ct) + m.sin(ct * 1.0) / 10.0;
    var b := m.sin(ct) + m.cos(ct * 2.0) / 10.0;
    var s := m.cos(ct);
    var f := p.factor;
    var slow := (ct / 10.0) * f;
    Transform(
      Vec3(CalmCoord(p.my, a, p.xFactor, m.cos(slow), m.sin(ct * 1.0), f),
           CalmCoord(p.my, b, p.yFactor, m.sin(slow), m.cos(ct * 2.0), f),
           CalmCoord(p.my, b, p.zFactor, m.cos(slow), m.sin(ct * 3.0), f)),
      Vec3(s * 5.0, s * 5.0, s * 5.0),
      Vec3(s, s, s))
  }

  /** The matrix written for processed slot k at clock reading `time`. In a
      storm it comes from the clock alone; in calm it is computed from the
      particle's time AFTER this frame's advance, never from the time it had. */
  function SlotTransform(m: Math, time: real, k: nat, p: Particle, storm: bool): (tr: Transform)
    requires Lawful(m)
    ensures storm ==> tr.rotation == Vec3(time * 5.0 + k as real, time * 5.0 + k as real, time * 5.0 + k as real)
    ensures storm ==> 1.0 <= tr.scale.x <= 2.0
    ensures !storm ==> tr.scale == Vec3(m.cos(p.t + p.speed / 2.0), m.cos(p.t + p.speed / 2.0), m.cos(p.t + p.speed / 2.0))
    ensures !storm ==> tr.rotation.x == 5.0 * m.cos(p.t + p.speed / 2.0)
    ensures !storm && p.my == 0.0 && 0.0 <= p.factor ==>
      Abs(tr.position.x - p.xFactor) <= 1.0 + p.factor / 10.0
  {
    if storm then StormTransform(m, time, k, p) else CalmTransform(m, Advance(p))
  }

  /** A storm matrix ignores everything but the slot's storm offset and radius:
      in particular its internal time. */
  lemma StormIgnoresCalmState(m: Math, time: real, k: nat, p: Particle, q: Particle)
    requires Lawful(m)
    requires p.stormOffset == q.stormOffset && p.stormRadius == q.stormRadius
    ensures SlotTransform(m, time, k, p, true) == SlotTransform(m, time, k, q, true)
  {
  }

  // ---------------------------------------------------------------------------
  // The whole pool per frame, as values

  /** The pool after one frame. */
  function PoolAfter(ps: seq<Particle>, count: int, storm: bool): (qs: seq<Particle>)
    ensures |qs| == |ps|
    ensures forall k :: 0 <= k < |ps| ==> qs[k] == SlotAfter(ps[k], k, count, storm)
  {
    seq(|ps|, k requires 0 <= k < |ps| => SlotAfter(ps[k], k, count, storm))
  }

  /** The instance matrices after one frame: slots below both `count` and the
      pool size get their new matrix; every other entry keeps its old value. */
  function MatricesAfter(m: Math, times: seq<real>, ps: seq<Particle>, count: int, storm: bool,
                         buffer: seq<Transform>): (bs: seq<Transform>)
    requires Lawful(m) && |times| == |ps|
    ensures |bs| == |buffer|
    ensures forall k :: 0 <= k < |buffer| && k < |ps| && k < count ==>
      bs[k] == SlotTransform(m, times[k], k, ps[k], storm)
    ensures forall k :: 0 <= k < |buffer| && (|ps| <= k || count <= k) ==> bs[k] == buffer[k]
  {
    seq(|buffer|, k requires 0 <= k < |buffer| =>
      if k < |ps| && k < count then SlotTransform(m, times[k], k, ps[k], storm) else buffer[k])
  }

  /** Storm frames leave the pool as it was. */
  lemma {:induction false} StormKeepsPool(ps: seq<Particle>, count: int, frames: nat)
    ensures Iterate(ps, count, true, frames) == ps
  {
    if frames > 0 {
      StormKeepsPool(ps, count, frames - 1);
      var qs := Iterate(ps, count, true, frames - 1);
      assert PoolAfter(qs, count, true) == qs;
    }
  }

  /** `frames` frames in a row with the same count and mode. */
  function Iterate(ps: seq<Particle>, count: int, storm: bool, frames: nat): (qs: seq<Particle>)
    ensures |qs| == |ps|
  {
    if frames == 0 then ps else PoolAfter(Iterate(ps, count, storm, frames - 1), count, storm)
  }

  /** Two storm frames at the same clock readings write the same matrices: no
      hidden state advances in storm mode. */
  lemma StormFrameRepeats(m: Math, times: seq<real>, ps: seq<Particle>, count: int, buffer: seq<Transform>)
    requires Lawful(m) && |times| == |ps|
    ensures var once := MatricesAfter(m, times, ps, count, true, buffer);
      MatricesAfter(m, times, PoolAfter(ps, count, true), count, true, once) == once
  {
    var once := MatricesAfter(m, times, ps, count, true, buffer);
    var twice := MatricesAfter(m, times, PoolAfter(ps, count, true), count, true, once);
    assert PoolAfter(ps, count, true) == ps;
    assert forall k :: 0 <= k < |once| ==> twice[k] == once[k];
  }

  /** Storm pauses the calm motion without resetting it: any number of storm
      frames followed by a calm frame gives the pool a calm frame gives directly. */
  lemma StormThenCalmResumes(ps: seq<Particle>, stormCount: int, count: int, stormFrames: nat)
    ensures PoolAfter(Iterate(ps, stormCount, true, stormFrames), count, false) == PoolAfter(ps, count, false)
  {
    StormKeepsPool(ps, stormCount, stormFrames);
  }

  /** Calm frames move every processed slot's time strictly forward, by half its
      speed per frame, and leave the slots at or beyond `count` untouched, so a
      density change never resets a particle. */
  lemma {:induction false} CalmFramesAdvance(ps: seq<Particle>, count: int, frames: nat, k: nat)
    requires k < |ps| && Healthy(ps[k])
    ensures Healthy(Iterate(ps, count, false, frames)[k])
    ensures k < count ==> Iterate(ps, count, false, frames)[k].t == ps[k].t + frames as real * ps[k].speed / 2.0
    ensures k < count && 0 < frames ==> ps[k].t < Iterate(ps, count, false, frames)[k].t
    ensures count <= k ==> Iterate(ps, count, false, frames)[k] == ps[k]
  {
    if frames > 0 {
      CalmFramesAdvance(ps, count, frames - 1, k);
      var prev := Iterate(ps, count, false, frames - 1);
      assert prev[k].speed == ps[k].speed by {
        SpeedIsFixed(ps, count, false, frames - 1, k);
      }
    }
  }

  /** The per-particle random factors never change. */
  lemma {:induction false} SpeedIsFixed(ps: seq<Particle>, count: int, storm: bool, frames: nat, k: nat)
    requires k < |ps|
    ensures Iterate(ps, count, storm, frames)[k].(t := ps[k].t) == ps[k]
  {
    if frames > 0 {
      SpeedIsFixed(ps, count, storm, frames - 1, k);
    }
  }

  // ---------------------------------------------------------------------------
  // The pool as an object

  /** The pool: its particle array (built once, mutated in place) and the
      shared scratch object whose transform is composed into each written
      matrix. */
  class ParticlePool {
    const particles: array<Particle>
    var dummy: Transform

    ghost predicate Valid()
      reads this, particles
    {
      && particles.Length == POOL_SIZE
      && forall k :: 0 <= k < POOL_SIZE ==> Healthy(particles[k])
    }

    constructor (draws: seq<real>)
      requires |draws| == POOL_SIZE * DRAWS_PER_PARTICLE
      requires forall k :: 0 <= k < |draws| ==> IsDraw(draws[k])
      ensures Valid() && fresh(particles)
      ensures forall k :: 0 <= k < POOL_SIZE ==> particles[k] == NewParticle(DrawsOf(draws, k))
    {
      var temp := InitialParticles(draws);
      particles := new Particle[POOL_SIZE](k requires 0 <= k < POOL_SIZE => temp[k]);
      dummy := Transform(Vec3(0.0, 0.0, 0.0), Vec3(0.0, 0.0, 0.0), Vec3(1.0, 1.0, 1.0));
    }

    /** The per-slot callback for a processed slot i: it reads the particle,
        advances its time in calm mode, and leaves the transform it computes in
        `dummy`. No other slot changes. */
    method ProcessSlot(m: Math, time: real, i: nat, storm: bool) returns (tr: Transform)
      requires Lawful(m) && Valid() && i < POOL_SIZE
      modifies particles, this`dummy
      ensures Valid()
      ensures tr == dummy == SlotTransform(m, time, i, old(particles[i]), storm)
      ensures particles[i] == SlotAfter(old(particles[i]), i, i + 1, storm)
      ensures forall k :: 0 <= k < POOL_SIZE && k != i ==> particles[k] == old(particles[k])
    {
      var p := particles[i];
      if storm {
        dummy := StormTransform(m, time, i, p);
      } else {
        particles[i] := Advance(particles[i]);
        dummy := CalmTransform(m, particles[i]);
      }
      tr := dummy;
    }

    /** One frame. Each slot below `count` reads the clock once (times[k]),
        computes its transform and writes it to matrices[k]; in calm mode it
        first advances its own time. Slots at or beyond `count` are skipped:
        neither the particle nor its matrix changes. `matrices` is the instance
        buffer of a mesh built for `count` instances. */
    method Frame(m: Math, times: seq<real>, count: nat, storm: bool, matrices: array<Transform>)
      requires Lawful(m) && Valid()
      requires |times| == POOL_SIZE && matrices.Length == count
      modifies particles, matrices, this`dummy
      ensures Valid()
      ensures particles[..] == PoolAfter(old(particles[..]), count, storm)
      ensures matrices[..] == MatricesAfter(m, times, old(particles[..]), count, storm, old(matrices[..]))
    {
      ghost var before, buffer := particles[..], matrices[..];
      for i := 0 to particles.Length
        invariant Valid()
        invariant forall k :: 0 <= k < POOL_SIZE ==>
          particles[k] == (if k < i then SlotAfter(before[k], k, count, storm) else before[k])
        invariant forall k :: 0 <= k < count ==>
          matrices[k] == (if k < i && k < POOL_SIZE then SlotTransform(m, times[k], k, before[k], storm) else buffer[k])
      {
        if i < count {
          var tr := ProcessSlot(m, times[i], i, storm);
          matrices[i] := tr;
        }
      }
      assert particles[..] == PoolAfter(before, count, storm);
      assert matrices[..] == MatricesAfter(m, times, before, count, storm, buffer);
    }
  }
}

=== FILE: procedural_rose.dfy ===
/** One rose tree: the phyllotaxis layout of its petals, each petal's pointer
    state and per-frame smoothing, the sway of the whole canopy, and the
    trunk and branch skeleton. */
module ProceduralRose {
  import opened RealMath
  import opened Smoothing
  import opened Themes

  /** 137.5 degrees in radians. */
  const GOLDEN_ANGLE: real := 137.5 * (PI / 180.0)

  /** Every tree places its petals with this scale factor. */
  const CANOPY_SCALE: real := 1.8

  // ---------------------------------------------------------------------------
  // Phyllotaxis layout

  /** Where petal i rests: its angle on the spiral, its distance from the
      axis, its height, the resulting position, and the tilt of its inner group. */
  datatype Layout = Layout(theta: real, radius: real, height: real, position: Vec3, tilt: real)

  /** The distance of petal i from the canopy axis, 0.08 * sqrt(i) * scaleFactor. */
  function RestRadius(m: Math, i: nat, scaleFactor: real): real {
    0.08 * m.sqrt(i as real) * scaleFactor
  }

  /** The height of petal i above the canopy origin, ln(i + 1) * 0.1 * scaleFactor. */
  function RestHeight(m: Math, i: nat, scaleFactor: real): real {
    m.log(i as real + 1.0) * 0.1 * scaleFactor
  }

  /** The rest layout of petal i. It is computed once per petal and only read
      afterwards. Petal 0 sits at the origin of the canopy; every petal lies at
      distance `radius` from the axis, on the golden-angle spiral. */
  function PetalLayout(m: Math, i: nat, scaleFactor: real): (l: Layout)
    requires Lawful(m)
    ensures l.theta == i as real * GOLDEN_ANGLE
    ensures l.radius == RestRadius(m, i, scaleFactor) && l.height == RestHeight(m, i, scaleFactor)
    ensures 0.0 <= scaleFactor ==> 0.0 <= l.radius
    ensures l.position.y == l.height
    ensures l.position.x == m.cos(l.theta) * l.radius && l.position.z == m.sin(l.theta) * l.radius
    ensures l.position.x * l.position.x + l.position.z * l.position.z == l.radius * l.radius
    ensures i == 0 ==> l.position == Vec3(0.0, 0.0, 0.0)
    ensures i < ROSE_COUNT ==> PI / 3.0 <= l.tilt < PI / 3.0 + 0.3
  {
    var theta := i as real * GOLDEN_ANGLE;
    var r := RestRadius(m, i, scaleFactor);
    var y := RestHeight(m, i, scaleFactor);
    PolarNorm(m, theta, r);
    assert 0.0 <= scaleFactor ==> 0.0 <= r by {
      if 0.0 <= scaleFactor {
        assert 0.0 <= m.sqrt(i as real);
        assert 0.0 <= (0.08 * m.sqrt(i as real)) * scaleFactor;
      }
    }
    Layout(theta, r, y, Vec3(m.cos(theta) * r, y, m.sin(theta) * r),
           PI / 3.0 + (i as real / ROSE_COUNT as real) * 0.3)
  }

  /** The canopy spreads outward and builds upward: for a positive scale factor
      both the radius and the height of the rest position strictly increase
      with the petal index. */
  lemma LayoutMonotone(m: Math, i: nat, j: nat, scaleFactor: real)
    requires Lawful(m)
    requires i < j && 0.0 < scaleFactor
    ensures RestRadius(m, i, scaleFactor) < RestRadius(m, j, scaleFactor)
    ensures RestHeight(m, i, scaleFactor) < RestHeight(m, j, scaleFactor)
  {
    var si, sj := m.sqrt(i as real), m.sqrt(j as real);
    assert si < sj;
    MulStrict(0.08 * si, 0.08 * sj, scaleFactor);
    var li, lj := m.log(i as real + 1.0), m.log(j as real + 1.0);
    assert li < lj;
    MulStrict(li * 0.1, lj * 0.1, scaleFactor);
  }

  /** The ROSE_COUNT petal layouts of one tree, in index order. */
  function Canopy(m: Math): (ls: seq<Layout>)
    requires Lawful(m)
    ensures |ls| == ROSE_COUNT
    ensures forall k :: 0 <= k < ROSE_COUNT ==> ls[k] == PetalLayout(m, k, CANOPY_SCALE)
    ensures ls[0].position == Vec3(0.0, 0.0, 0.0)
    ensures forall j, k :: 0 <= j < k < |ls| ==> ls[j].radius < ls[k].radius && ls[j].height < ls[k].height
  {
    var ls := seq(ROSE_COUNT, k requires 0 <= k => PetalLayout(m, k, CANOPY_SCALE));
    assert ls[0] == PetalLayout(m, 0, CANOPY_SCALE);
    assert forall j, k :: 0 <= j < k < |ls| ==> ls[j].radius < ls[k].radius && ls[j].height < ls[k].height by {
      forall j, k | 0 <= j < k < |ls|
        ensures ls[j].radius < ls[k].radius && ls[j].height < ls[k].height
      {
        LayoutMonotone(m, j, k, CANOPY_SCALE);
      }
    }
    ls
  }

  // ---------------------------------------------------------------------------
  // Pointer interaction

  datatype PointerEvent = PointerOver | PointerOut | PointerDown | PointerUp

  /** The two state flags of a petal. */
  datatype Interaction = Interaction(hovered: bool, clicked: bool)

  const IDLE: Interaction := Interaction(false, false)

  /** The four pointer handlers. Pointer-over and pointer-down each set one
      flag, pointer-up clears only `clicked`, pointer-out clears both. */
  function OnPointer(s: Interaction, e: PointerEvent): (s': Interaction)
    ensures e == PointerOver ==> s'.hovered && s'.clicked == s.clicked
    ensures e == PointerOut ==> !s'.hovered && !s'.clicked
    ensures e == PointerDown ==> s'.clicked && s'.hovered == s.hovered
    ensures e == PointerUp ==> !s'.clicked && s'.hovered == s.hovered
  {
    match e
    case PointerOver => s.(hovered := true)
    case PointerOut => Interaction(false, false)
    case PointerDown => s.(clicked := true)
    case PointerUp => s.(clicked := false)
  }

  /** The flags after a run of pointer events, delivered in order. */
  function Replay(s: Interaction, es: seq<PointerEvent>): Interaction
    decreases |es|
  {
    if es == [] then s else OnPointer(Replay(s, es[..|es| - 1]), es[|es| - 1])
  }

  predicate Releases(e: PointerEvent) {
    e == PointerUp || e == PointerOut
  }

  /** A press is still held after `es`: either the last press-or-release event
      is a pointer-down, or there is none and the petal started clicked. */
  ghost predicate PressHeld(s: Interaction, es: seq<PointerEvent>) {
    || (exists k :: 0 <= k < |es| && es[k] == PointerDown && NoReleaseAfter(es, k))
    || (s.clicked && forall j :: 0 <= j < |es| ==> !Releases(es[j]))
  }

  ghost predicate NoReleaseAfter(es: seq<PointerEvent>, k: nat) {
    forall j :: k < j < |es| ==> !Releases(es[j])
  }

  /** The pointer is still over the petal after `es`: the last over-or-out event
      is a pointer-over, or there is none and the petal started hovered. */
  ghost predicate PointerInside(s: Interaction, es: seq<PointerEvent>) {
    || (exists k :: 0 <= k < |es| && es[k] == PointerOver && NoOutAfter(es, k))
    || (s.hovered && forall j :: 0 <= j < |es| ==> es[j] != PointerOut)
  }

  ghost predicate NoOutAfter(es: seq<PointerEvent>, k: nat) {
    forall j :: k < j < |es| ==> es[j] != PointerOut
  }

  lemma {:induction false} ClickedIffPressHeld(s: Interaction, es: seq<PointerEvent>)
    ensures Replay(s, es).clicked <==> PressHeld(s, es)
    decreases |es|
  {
    if es != [] {
      var n := |es| - 1;
      var init, e := es[..n], es[n];
      ClickedIffPressHeld(s, init);
      assert forall j :: 0 <= j < n ==> es[j] == init[j];
      match e
      case PointerDown =>
        assert NoReleaseAfter(es, n);
      case PointerOver =>
        if PressHeld(s, init) {
          if exists k :: 0 <= k < n && init[k] == PointerDown && NoReleaseAfter(init, k) {
            var k :| 0 <= k < n && init[k] == PointerDown && NoReleaseAfter(init, k);
            assert es[k] == PointerDown && NoReleaseAfter(es, k);
          }
        }
        if PressHeld(s, es) {
          if exists k :: 0 <= k < |es| && es[k] == PointerDown && NoReleaseAfter(es, k) {
            var k :| 0 <= k < |es| && es[k] == PointerDown && NoReleaseAfter(es, k);
            assert init[k] == PointerDown && NoReleaseAfter(init, k);
          }
        }
      case _ =>
        assert Releases(es[n]);
        assert !PressHeld(s, es);
    }
  }

  lemma {:induction false} HoveredIffPointerInside(s: Interaction, es: seq<PointerEvent>)
    ensures Replay(s, es).hovered <==> PointerInside(s, es)
    decreases |es|
  {
    if es != [] {
      var n := |es| - 1;
      var init, e := es[..n], es[n];
      HoveredIffPointerInside(s, init);
      assert forall j :: 0 <= j < n ==> es[j] == init[j];
      match e
      case PointerOver =>
        assert NoOutAfter(es, n);
      case PointerOut =>
        assert !PointerInside(s, es);
      case _ =>
        if PointerInside(s, init) {
          if exists k :: 0 <= k < n && init[k] == PointerOver && NoOutAfter(init, k) {
            var k :| 0 <= k < n && init[k] == PointerOver && NoOutAfter(init, k);
            assert es[k] == PointerOver && NoOutAfter(es, k);
          }
        }
        if PointerInside(s, es) {
          if exists k :: 0 <= k < |es| && es[k] == PointerOver && NoOutAfter(es, k) {
            var k :| 0 <= k < |es| && es[k] == PointerOver && NoOutAfter(es, k);
            assert init[k] == PointerOver && NoOutAfter(init, k);
          }
        }
    }
  }

  // ---------------------------------------------------------------------------
  // Per-frame targets

  /** The scale a petal grows or shrinks towards: a held press wins over hover. */
  function TargetScale(s: Interaction): (r: real)
    ensures s.clicked ==> r == 0.9
    ensures !s.clicked && s.hovered ==> r == 1.3
    ensures !s.clicked && !s.hovered ==> r == 1.0
    ensures 0.9 <= r <= 1.3
  {
    if s.clicked then 0.9 else if s.hovered then 1.3 else 1.0
  }

  /** After any run of pointer events the petal aims at the pressed size 0.9
      exactly when a press is still held, and at the hover size 1.3 exactly
      when the pointer is inside and no press is held. */
  lemma TargetScaleAfterEvents(s: Interaction, es: seq<PointerEvent>)
    ensures TargetScale(Replay(s, es)) == 0.9 <==> PressHeld(s, es)
    ensures TargetScale(Replay(s, es)) == 1.3 <==> !PressHeld(s, es) && PointerInside(s, es)
  {
    ClickedIffPressHeld(s, es);
    HoveredIffPointerInside(s, es);
  }

  /** The storm shake around x; the target of rotation.x. Zero when calm. */
  function StormShakeX(m: Math, time: real, i: nat, storm: bool): (r: real)
    requires Lawful(m)
    ensures !storm ==> r == 0.0
    ensures -0.1 <= r <= 0.1
  {
    if storm then m.sin(time * 15.0 + i as real) * 0.1 else 0.0
  }

  /** The storm shake around z. Zero when calm. */
  function StormShakeZ(m: Math, time: real, i: nat, storm: bool): (r: real)
    requires Lawful(m)
    ensures !storm ==> r == 0.0
    ensures -0.1 <= r <= 0.1
  {
    if storm then m.cos(time * 18.0 + i as real) * 0.1 else 0.0
  }

  /** The gentle vertical breathing of petal i. */
  function Breathing(m: Math, time: real, i: nat): (r: real)
    requires Lawful(m)
    ensures -0.01 <= r <= 0.01
  {
    m.sin(time * 0.5 + i as real * 0.1) * 0.01
  }

  /** The storm's vertical jitter, shared by every petal. Zero when calm. */
  function StormJitterY(m: Math, time: real, storm: bool): (r: real)
    requires Lawful(m)
    ensures !storm ==> r == 0.0
    ensures -0.03 <= r <= 0.03
  {
    if storm then m.sin(time * 8.0) * 0.03 else 0.0
  }

  /** The target of rotation.z: a slow sway of 0.05, the storm shake, and a fast
      jitter of 0.05 while hovered. Without storm and hover only the sway remains. */
  function TargetRotZ(m: Math, time: real, i: nat, storm: bool, hovered: bool): (r: real)
    requires Lawful(m)
    ensures -0.2 <= r <= 0.2
    ensures !storm && !hovered ==> -0.05 <= r <= 0.05
  {
    var rot := m.sin(time * 1.5 + i as real) * 0.05 + StormShakeZ(m, time, i, storm);
    if hovered then rot + m.sin(time * 20.0) * 0.05 else rot
  }

  /** The target of position.y: the rest height plus breathing, the hover lift
      0.1 and the storm jitter. The two cases never overlap: the target lies
      more than 0.05 above rest exactly when the petal is hovered. */
  function TargetY(m: Math, restY: real, time: real, i: nat, hovered: bool, storm: bool): (r: real)
    requires Lawful(m)
    ensures restY - 0.04 <= r <= restY + 0.14
    ensures hovered <==> r > restY + 0.05
    ensures !storm && !hovered ==> restY - 0.01 <= r <= restY + 0.01
    ensures !storm && hovered ==> restY + 0.09 <= r <= restY + 0.11
  {
    var targetLift := if hovered then 0.1 else 0.0;
    restY + Breathing(m, time, i) + targetLift + StormJitterY(m, time, storm)
  }

  /** The lift is the only part of the y target that hover changes, and it is 0.1. */
  lemma HoverLift(m: Math, restY: real, time: real, i: nat, storm: bool)
    requires Lawful(m)
    ensures TargetY(m, restY, time, i, true, storm) == TargetY(m, restY, time, i, false, storm) + 0.1
  {
  }

  // ---------------------------------------------------------------------------
  // A petal as an object

  /** One petal: its rest layout, its two flags and the transform of its group,
      which the frame step smooths in place. */
  class Petal {
    const i: nat
    const layout: Layout
    var hovered: bool
    var clicked: bool
    var scale: Vec3
    var rotation: Vec3
    var position: Vec3

    function State(): Interaction
      reads this
    {
      Interaction(hovered, clicked)
    }

    /** What the smoothing keeps true whatever the events and the storm do:
        the scale stays uniform and within [0.9, 1.3], the rotations stay within
        the range of their targets, the yaw and the horizontal position stay at
        rest, and the height stays within the range of its target. */
    ghost predicate Valid()
      reads this
    {
      && scale.x == scale.y == scale.z
      && 0.9 <= scale.x <= 1.3
      && -0.1 <= rotation.x <= 0.1
      && rotation.y == -layout.theta
      && -0.2 <= rotation.z <= 0.2
      && position.x == layout.position.x
      && position.z == layout.position.z
      && layout.height - 0.04 <= position.y <= layout.height + 0.14
    }

    /** A petal as mounted: at rest, idle, unit scale, turned by -theta. */
    constructor (m: Math, i: nat, scaleFactor: real)
      requires Lawful(m)
      ensures this.i == i && layout == PetalLayout(m, i, scaleFactor)
      ensures State() == IDLE
      ensures scale == Vec3(1.0, 1.0, 1.0)
      ensures rotation == Vec3(0.0, -layout.theta, 0.0)
      ensures position == layout.position
      ensures Valid()
    {
      var l := PetalLayout(m, i, scaleFactor);
      this.i := i;
      layout := l;
      hovered, clicked := false, false;
      scale := Vec3(1.0, 1.0, 1.0);
      rotation := Vec3(0.0, -l.theta, 0.0);
      position := l.position;
    }

    method OnPointerOver()
      modifies this
      ensures State() == OnPointer(old(State()), PointerOver)
      ensures Valid() <==> old(Valid())
      ensures scale == old(scale) && rotation == old(rotation) && position == old(position)
    {
      hovered := true;
    }

    method OnPointerOut()
      modifies this
      ensures State() == OnPointer(old(State()), PointerOut)
      ensures Valid() <==> old(Valid())
      ensures scale == old(scale) && rotation == old(rotation) && position == old(position)
    {
      hovered := false;
      clicked := false;
    }

    method OnPointerDown()
      modifies this
      ensures State() == OnPointer(old(State()), PointerDown)
      ensures Valid() <==> old(Valid())
      ensures scale == old(scale) && rotation == old(rotation) && position == old(position)
    {
      clicked := true;
    }

    method OnPointerUp()
      modifies this
      ensures State() == OnPointer(old(State()), PointerUp)
      ensures Valid() <==> old(Valid())
      ensures scale == old(scale) && rotation == old(rotation) && position == old(position)
    {
      clicked := false;
    }

    /** One frame at elapsed time `time`: scale, rotation.x, rotation.z and
        position.y each take one smoothing step towards their targets; the
        flags, the yaw and the horizontal position are left alone. */
    method Frame(m: Math, time: real, storm: bool)
      requires Lawful(m) && Valid()
      modifies this
      ensures Valid()
      ensures State() == old(State())
      ensures scale == Vec3(Smooth(old(scale.x), TargetScale(State())),
                            Smooth(old(scale.y), TargetScale(State())),
                            Smooth(old(scale.z), TargetScale(State())))
      ensures rotation == Vec3(Smooth(old(rotation.x), StormShakeX(m, time, i, storm)),
                               old(rotation.y),
                               Smooth(old(rotation.z), TargetRotZ(m, time, i, storm, hovered)))
      ensures position == old(position).(y := Smooth(old(position.y), TargetY(m, layout.height, time, i, hovered, storm)))
    {
      var targetScale := TargetScale(State());
      scale := Vec3(Smooth(scale.x, targetScale), Smooth(scale.y, targetScale), Smooth(scale.z, targetScale));
      var targetRotZ := TargetRotZ(m, time, i, storm, hovered);
      rotation := rotation.(z := Smooth(rotation.z, targetRotZ));
      rotation := rotation.(x := Smooth(rotation.x, StormShakeX(m, time, i, storm)));
      var targetY := TargetY(m, layout.height, time, i, hovered, storm);
      position := position.(y := Smooth(position.y, targetY));
    }
  }

  /** Frames with no pointer event in between: the scale follows the iterated
      smoothing towards the one target the flags select. */
  method HoldFrames(petal: Petal, m: Math, times: seq<real>, storm: bool)
    requires Lawful(m) && petal.Valid()
    modifies petal
    ensures petal.Valid()
    ensures petal.State() == old(petal.State())
    ensures petal.scale.x == SmoothN(old(petal.scale.x), TargetScale(petal.State()), |times|)
  {
    var target := TargetScale(petal.State());
    for k := 0 to |times|
      invariant petal.Valid()
      invariant petal.State() == old(petal.State())
      invariant petal.scale.x == SmoothN(old(petal.scale.x), target, k)
    {
      petal.Frame(m, times[k], storm);
    }
  }

  // ---------------------------------------------------------------------------
  // The whole tree: sway and skeleton

  /** Wind intensity and sway speed for storm and calm. */
  function Wind(storm: bool): real {
    if storm then 0.3 else 0.02
  }

  function SwaySpeed(storm: bool): real {
    if storm then 8.0 else 1.0
  }

  /** The sway amplitude, wind * sqrt(stemLength) * 0.5. It is never negative,
      and a storm multiplies it by 15. */
  function SwayAmount(m: Math, stemLength: real, storm: bool): (amt: real)
    requires Lawful(m)
    ensures 0.0 <= stemLength ==> 0.0 <= amt
    ensures storm ==> amt == 0.15 * m.sqrt(stemLength)
    ensures !storm ==> amt == 0.01 * m.sqrt(stemLength)
  {
    Wind(storm) * m.sqrt(stemLength) * 0.5
  }

  /** Taller trees sway further, in storm and in calm alike. */
  lemma SwayGrowsWithHeight(m: Math, short: real, tall: real, storm: bool)
    requires Lawful(m)
    requires 0.0 <= short < tall
    ensures SwayAmount(m, short, storm) < SwayAmount(m, tall, storm)
  {
    assert m.sqrt(short) < m.sqrt(tall);
  }

  /** The canopy's rotation about x and z for one frame. */
  datatype Tilt = Tilt(x: real, z: real)

  /** The sway of a tree at `position` at time t: a sine about z and a slower
      cosine about x, both phased by the tree's position and both bounded by
      the sway amplitude. */
  function Sway(m: Math, t: real, position: Vec3, stemLength: real, storm: bool): (r: Tilt)
    requires Lawful(m)
    ensures 0.0 <= stemLength ==> -SwayAmount(m, stemLength, storm) <= r.z <= SwayAmount(m, stemLength, storm)
    ensures 0.0 <= stemLength ==> -SwayAmount(m, stemLength, storm) <= r.x <= SwayAmount(m, stemLength, storm)
    ensures storm ==> r.z == m.sin(t * 8.0 + position.x) * SwayAmount(m, stemLength, storm)
    ensures storm ==> r.x == m.cos(t * 8.0 * 0.8 + position.z) * SwayAmount(m, stemLength, storm)
    ensures !storm ==> r.z == m.sin(t * 1.0 + position.x) * SwayAmount(m, stemLength, storm)
    ensures !storm ==> r.x == m.cos(t * 1.0 * 0.8 + position.z) * SwayAmount(m, stemLength, storm)
  {
    var speed := SwaySpeed(storm);
    var swayAmt := SwayAmount(m, stemLength, storm);
    var s, c := m.sin(t * speed + position.x), m.cos(t * speed * 0.8 + position.z);
    ScaledUnit(s, swayAmt);
    ScaledUnit(c, swayAmt);
    var tilt := Tilt(c * swayAmt, s * swayAmt);
    assert 0.0 <= stemLength ==> -swayAmt <= tilt.z <= swayAmt && -swayAmt <= tilt.x <= swayAmt;
    tilt
  }

  /** A cylinder mesh: position, Euler rotation and CylinderGeometry arguments. */
  datatype Cylinder = Cylinder(position: Vec3, rotation: Vec3, radiusTop: real, radiusBottom: real,
                               height: real, radialSegments: nat)

  /** The canopy group sits at the top of the stem. */
  function CanopyOrigin(stemLength: real): Vec3 {
    Vec3(0.0, stemLength, 0.0)
  }

  /** The trunk: a cylinder standing on the ground and reaching the canopy,
      twice as thick at the base as at the top. */
  function Trunk(scale: real, stemLength: real): (c: Cylinder)
    ensures c.position.x == 0.0 && c.position.z == 0.0
    ensures c.position.y - c.height / 2.0 == 0.0
    ensures c.position.y + c.height / 2.0 == CanopyOrigin(stemLength).y
    ensures c.radiusBottom == 2.0 * c.radiusTop
    ensures 0.0 < scale ==> c.radiusTop < c.radiusBottom
  {
    Cylinder(Vec3(0.0, stemLength / 2.0, 0.0), Vec3(0.0, 0.0, 0.0), 0.04 * scale, 0.08 * scale, stemLength, 8)
  }

  /** The branch stubs: two fixed stubs when the stem is longer than 1, none
      otherwise. Each stub starts below the top of the stem, is shorter than the
      stem and tapers outward. */
  function Branches(stemLength: real): (bs: seq<Cylinder>)
    ensures |bs| == (if stemLength > 1.0 then 2 else 0)
    ensures forall b <- bs :: 0.0 < b.position.y < stemLength && 0.0 < b.height < stemLength
    ensures forall b <- bs :: b.radiusTop < b.radiusBottom
  {
    if stemLength > 1.0 then
      [ Cylinder(Vec3(0.1, stemLength * 0.7, 0.0), Vec3(0.0, 0.0, -PI / 3.0), 0.02, 0.04, stemLength * 0.4, 5),
        Cylinder(Vec3(-0.1, stemLength * 0.5, 0.1), Vec3(0.5, 0.0, PI / 3.0), 0.02, 0.04, stemLength * 0.3, 5) ]
    else []
  }

  /** A rose tree: its props and the rotation of its swaying group. */
  class RoseTree {
    const position: Vec3
    const scale: real
    const stemLength: real
    const color: string
    const trunkColor: string
    var sway: Vec3

    /** The default props are scale 1 and stem length 0.5. */
    constructor (position: Vec3, color: string, trunkColor: string, scale: real := 1.0, stemLength: real := 0.5)
      ensures this.position == position && this.color == color && this.trunkColor == trunkColor
      ensures this.scale == scale && this.stemLength == stemLength
      ensures sway == Vec3(0.0, 0.0, 0.0)
    {
      this.position := position;
      this.color := color;
      this.trunkColor := trunkColor;
      this.scale := scale;
      this.stemLength := stemLength;
      sway := Vec3(0.0, 0.0, 0.0);
    }

    /** One frame: the group's rotation about z and x is set outright (no
        smoothing) to the sway at time t; its rotation about y is kept. */
    method Frame(m: Math, t: real, storm: bool)
      requires Lawful(m)
      modifies this
      ensures sway == Vec3(Sway(m, t, position, stemLength, storm).x, old(sway.y), Sway(m, t, position, stemLength, storm).z)
      ensures 0.0 <= stemLength ==>
        -SwayAmount(m, stemLength, storm) <= sway.z <= SwayAmount(m, stemLength, storm)
    {
      var tilt := Sway(m, t, position, stemLength, storm);
      sway := sway.(z := tilt.z);
      sway := sway.(x := tilt.x);
    }

    /** The skeleton: the trunk, then the branch stubs if any. */
    function Skeleton(): (cs: seq<Cylinder>)
      reads this
      ensures |cs| == 1 + |Branches(stemLength)|
      ensures cs[0] == Trunk(scale, stemLength)
      ensures cs[1..] == Branches(stemLength)
    {
      [Trunk(scale, stemLength)] + Branches(stemLength)
    }
  }
}

=== FILE: real_math.dfy ===
/** Real arithmetic shared by the scene: JavaScript's Math functions, kept
    uninterpreted, and the small vector and transform records of three.js. */
module RealMath {

  /** Math.PI. */
  const PI: real := 3.141592653589793

  /** Math.sin, Math.cos, Math.sqrt and Math.log. Their values are never
      computed; only the facts of Lawful are used about them. */
  datatype Math = Math(sin: real -> real, cos: real -> real, sqrt: real -> real, log: real -> real)

  /** The facts about the transcendental functions that the model relies on. */
  ghost predicate Lawful(m: Math) {
    && (forall x :: -1.0 <= m.sin(x) <= 1.0)
    && (forall x :: -1.0 <= m.cos(x) <= 1.0)
    && (forall x :: m.sin(x) * m.sin(x) + m.cos(x) * m.cos(x) == 1.0)
    && m.sqrt(0.0) == 0.0
    && (forall u :: 0.0 <= u ==> 0.0 <= m.sqrt(u))
    && (forall u, v :: 0.0 <= u < v ==> m.sqrt(u) < m.sqrt(v))
    && (forall u :: 0.0 <= u < 1.0 ==> m.sqrt(u) < 1.0)
    && m.log(1.0) == 0.0
    && (forall u, v :: 0.0 < u < v ==> m.log(u) < m.log(v))
  }

  /** A value Math.random() may return. */
  predicate IsDraw(u: real) {
    0.0 <= u < 1.0
  }

  function Abs(x: real): real {
    if x < 0.0 then -x else x
  }

  /** A THREE.Vector3 (also used for Euler rotations). */
  datatype Vec3 = Vec3(x: real, y: real, z: real)

  /** What Object3D.updateMatrix composes into one instance matrix. */
  datatype Transform = Transform(position: Vec3, rotation: Vec3, scale: Vec3)

  /** A value in [-1, 1] times a non-negative amplitude stays within that amplitude. */
  lemma ScaledUnit(a: real, k: real)
    requires -1.0 <= a <= 1.0
    ensures 0.0 <= k ==> -k <= a * k <= k
  {
    if k < 0.0 {
    } else if a >= 0.0 {
      assert a * k <= 1.0 * k;
    } else {
      assert (-a) * k <= 1.0 * k;
    }
  }

  /** A point at angle a and distance r from the origin is at squared distance r * r. */
  lemma PolarNorm(m: Math, a: real, r: real)
    requires Lawful(m)
    ensures (m.cos(a) * r) * (m.cos(a) * r) + (m.sin(a) * r) * (m.sin(a) * r) == r * r
  {
    var c, s := m.cos(a), m.sin(a);
    assert s * s + c * c == 1.0;
    calc {
      (c * r) * (c * r) + (s * r) * (s * r);
      (c * c + s * s) * (r * r);
      r * r;
    }
  }

  /** Squaring is monotone on the non-negative reals. */
  lemma SquareBetween(lo: real, r: real, hi: real)
    ensures 0.0 <= lo <= r < hi ==> lo * lo <= r * r < hi * hi
  {
    if 0.0 <= lo <= r < hi {
      var d, e := r - lo, hi - r;
      assert r * r == lo * lo + d * (r + lo) && d * (r + lo) >= 0.0;
      assert hi * hi == r * r + e * (hi + r) && e * (hi + r) > 0.0;
    }
  }

  /** Multiplying by a positive factor keeps a strict order. */
  lemma MulStrict(a: real, b: real, c: real)
    requires a < b && 0.0 < c
    ensures a * c < b * c
  {
    assert (b - a) * c > 0.0;
  }
}

=== FILE: smoothing.dfy ===
/** The first-order smoothing every petal applies once per frame: three.js's
    lerp with the fixed factor 0.1. */
module Smoothing {
  import opened RealMath

  /** The blend factor passed to every lerp of the petal animation. */
  const FACTOR: real := 0.1

  /** The share of the remaining distance that one step leaves. */
  const RETAIN: real := 0.9

  /** The distance between two values. */
  function Dist(a: real, b: real): real {
    Abs(a - b)
  }

  /** v lies on the closed segment between a and b, whichever is larger. */
  predicate Between(a: real, v: real, b: real) {
    (a <= v <= b) || (b <= v <= a)
  }

  /** One smoothing step: MathUtils.lerp(x, target, 0.1), which is also what
      Vector3.lerp does to each component. The step lands between the current
      value and the target, never overshoots, and leaves exactly 0.9 of the
      distance to go. */
  function Smooth(x: real, target: real): (r: real)
    ensures Between(x, r, target)
    ensures r - target == RETAIN * (x - target)
    ensures Dist(r, target) == RETAIN * Dist(x, target)
    ensures x != target ==> Dist(r, target) < Dist(x, target)
  {
    x + (target - x) * FACTOR
  }

  function Pow(b: real, n: nat): (r: real)
    requires 0.0 < b <= 1.0
    ensures 0.0 < r <= 1.0
  {
    if n == 0 then 1.0
    else
      var p := Pow(b, n - 1);
      assert b * p <= 1.0 * p;
      b * p
  }

  /** n frames of smoothing towards a target that stays fixed. */
  function SmoothN(x: real, target: real, n: nat): (r: real)
    ensures Between(x, r, target)
    ensures r - target == Pow(RETAIN, n) * (x - target)
  {
    if n == 0 then x
    else
      var prev := SmoothN(x, target, n - 1);
      assert Smooth(prev, target) - target == RETAIN * (Pow(RETAIN, n - 1) * (x - target));
      Smooth(prev, target)
  }

  /** Iterated smoothing is monotone: every later value lies between any
      earlier one and the target, so the value approaches the target from one
      side and never crosses it. */
  lemma {:induction false} SmoothNMonotone(x: real, target: real, j: nat, k: nat)
    requires j <= k
    ensures Between(SmoothN(x, target, j), SmoothN(x, target, k), target)
  {
    if j < k {
      SmoothNMonotone(x, target, j, k - 1);
      var a, b := SmoothN(x, target, j), SmoothN(x, target, k - 1);
      assert Between(b, Smooth(b, target), target);
    }
  }

  /** 0.9^n <= 9 / (9 + n), from Bernoulli's inequality for (10/9)^n. */
  lemma {:induction false} PowBound(n: nat)
    ensures Pow(RETAIN, n) * (9.0 + n as real) <= 9.0
  {
    if n > 0 {
      PowBound(n - 1);
      var p := Pow(RETAIN, n - 1);
      var k := (n - 1) as real;
      assert p * (9.0 + k) <= 9.0;
      calc {
        Pow(RETAIN, n) * (9.0 + n as real);
        RETAIN * p * (10.0 + k);
        p * (9.0 + 0.9 * k);
      <= { assert p * (0.9 * k) <= p * k by { assert p * (0.1 * k) >= 0.0; } }
        p * (9.0 + k);
      <= 9.0;
      }
    }
  }

  /** Convergence: after n frames with n * eps >= 9 * |x - target| the value is
      within eps of the target. */
  lemma SmoothNConverges(x: real, target: real, n: nat, eps: real)
    requires 0.0 < eps
    requires n as real * eps >= 9.0 * Dist(x, target)
    ensures Dist(SmoothN(x, target, n), target) < eps
  {
    PowBound(n);
    var p, d := Pow(RETAIN, n), Dist(x, target);
    var r := SmoothN(x, target, n);
    assert Dist(r, target) == p * d by {
      if x < target {
        assert r - target == p * (x - target) == -(p * d);
      } else {
        assert r - target == p * d;
      }
    }
    ShrunkBelow(p, d, 9.0 + n as real, eps);
  }

  /** The arithmetic core of convergence: p * N <= 9 and 9 * d < N * eps give p * d < eps. */
  lemma ShrunkBelow(p: real, d: real, big: real, eps: real)
    requires 0.0 < p && 0.0 <= d && 9.0 <= big && 0.0 < eps
    requires p * big <= 9.0
    requires 9.0 * d <= (big - 9.0) * eps
    ensures p * d < eps
  {
    assert 9.0 * d < big * eps;
    var q := 9.0 - p * big;
    assert q * d >= 0.0;
    assert p * big * d <= 9.0 * d;
    var w := p * d;
    assert (w - eps) * big < 0.0;
    if w >= eps {
      assert false;
    }
  }
}

=== FILE: themes.dfy ===
/** The static theme table and the petal count per tree. */
module Themes {

  /** Petals per rose tree. */
  const ROSE_COUNT: nat := 60

  /** The theme identifiers the UI can select. */
  datatype ThemeColor = Tatami | Midnight

  /** One row of the theme table: colours as CSS hex strings, bloom settings as numbers. */
  datatype Theme = Theme(
    primary: string,
    secondary: string,
    accent: string,
    background: string,
    ground: string,
    trunk: string,
    bloomThreshold: real,
    bloomIntensity: real)

  /** The theme table. The two tree colours of every theme differ, so a tree's
      colour tells which of the two it was given. */
  function ThemeOf(id: ThemeColor): (t: Theme)
    ensures t.primary != t.secondary
    ensures 0.0 < t.bloomThreshold < 1.0 && 0.0 < t.bloomIntensity
  {
    match id
    case Tatami =>
      Theme("#FF0055", "#FF0099", "#FFFFFF", "#FFCce6", "#FF66B2", "#4A0E2E", 0.4, 2.5)
    case Midnight =>
      Theme("#990033", "#550022", "#FFD700", "#1a0505", "#0f0202", "#1a0505", 0.2, 1.5)
  }
}
